=== FILE: README.md ===
# Gme library widget — a Dafny model

This project models the page script of the "gme" library widget
(`gmes/js/gme.js`). The widget loads a catalog of small HTML games from a CDN
and shows them as a searchable grid with the user's favorites first. It keeps
a favorites list keyed by url. It plays a chosen game's markup inside an
embedded frame. The DOM, the network, the clock and local storage are not
modelled. The model covers the list and string logic between them, plus the
state the page script keeps:

- `Catalog` covers the body of `loadGmes`. It drops the suggestion record with
  id -1. It maps every other record to an item: the url gets the html CDN
  prefix, loses its first `{HTML_URL}` and gains `?t=<timestamp>`. The cover
  gets the covers CDN in place of its first `{COVER_URL}`. Every "game" in the
  name becomes "gme", in any letter case.
- `Search` covers `filterGmes`: a case-insensitive substring filter on the
  name that keeps catalog order.
- `Ordering` covers the sort in `renderGmes`: favorites first, otherwise in
  the original order. `Array.prototype.sort` must be stable (ECMA-262,
  section 23.1.3.30 of the 2023 edition). The model proves that every stable
  sort under this comparator gives the same result. So the model does not
  depend on which sorting algorithm an engine uses.
- `Favorites` covers `toggleFavorite` and the label decision of
  `updateFavoriteButton`.
- `Viewer` covers `playGme`, `closeGme` and `refreshGme` as changes to a page
  record. The record holds the view (grid or playing), the frame's
  `srcdoc` value, whether it has a `srcdoc` attribute and a `src` attribute,
  the title, the open url and the button label.
- `Widget` covers the global state and the handler each event runs. It also
  states the invariants those handlers keep.
- `Seqs`, `Text` and `Options` are shared helpers:
  - an order-preserving filter and its laws;
  - ASCII case folding, substring search, first-occurrence replacement, and
    decimal rendering of the timestamp;
  - an option type.

The model takes these as inputs:

- **Fetch results.** The catalog feed is unreadable, not ok, or a list of
  records. An item's markup is a network error, not ok, or a body.
- **Clock readings.** `Date.now()` is read once per item inside the map on
  line 25, so `Normalize` takes one reading per listed record.
- **Stored favorites.** `Widget.Start` receives the favorites read from
  storage.

Four behaviours of the code are worth stating plainly:

- Line 4 parses the stored favorites without a guard, so a malformed stored
  value throws. `Widget.Start` takes the parsed list as its input.
- Toggling an absent url twice restores the favorites
  (`Favorites.ToggleTwiceAbsent`). Toggling a present url twice does not
  restore the list: when no two favorites share a url (every toggle keeps
  it so, `Favorites.ToggleKeepsDistinct`), the entry returns at the end,
  carrying the second toggle's title (`Favorites.ToggleTwicePresent`).
  `Favorites.ToggleTwiceReorders` gives a concrete case.
- `loadGmes` (line 32) resets the filtered view to the whole catalog,
  whatever the search box holds. `Widget.Step` models this as written. The
  invariant proved is that the filtered view is a subsequence of the
  catalog.
- `closeGme` assigns `src = ''` and `srcdoc = ''` (lines 140-141), which
  leave both attributes on the frame with empty values. Read back, `src`
  resolves to the document's own URL, so a later `refreshGme` takes the
  `src` branch and re-assigns it (line 150). Nothing loads: under the HTML
  standard's iframe rules a `srcdoc` attribute, even an empty one, overrides
  `src` (`Viewer.CloseThenRefresh`). In fact no reachable state makes the
  refresh button load the `src` location (`Widget.RefreshNeverNavigates`).

## Model

| member | source | states |
|---|---|---|
| `Catalog.Normalize` | gmes/js/gme.js:22-28 | one item per record whose id is not -1 |
| `Catalog.NormalizeOne` | gmes/js/gme.js:22-28 | a lone sentinel record yields no item; any other lone record yields exactly its mapped item |
| `Catalog.NormalizeAppend` | gmes/js/gme.js:22-28 | normalising a concatenated feed concatenates the results, using the clock readings in order; items keep the order of their records |
| `Catalog.SentinelIgnored` | gmes/js/gme.js:23 | inserting the id -1 record anywhere in the feed changes neither the number of readings needed nor the result |
| `Catalog.ItemUrl` | gmes/js/gme.js:25 | the url starts with the html CDN base; if the path has no `{HTML_URL}` it is kept whole, else only its leftmost `{HTML_URL}` is removed; then `?t=` and the decimal timestamp follow |
| `Catalog.CoverUrl` | gmes/js/gme.js:27 | a cover without `{COVER_URL}` is unchanged; otherwise exactly its leftmost `{COVER_URL}` becomes the covers CDN base |
| `Catalog.ToItem` | gmes/js/gme.js:24-28 | the item's name contains no case-insensitive "game", and a name that had none is unchanged |
| `Catalog.RenameGames` | gmes/js/gme.js:26 | the /game/gi rewrite never lengthens a name; its meaning is pinned down by `Catalog.RenameAtFirstGame` (leftmost match, then resume after it) with `Catalog.RenameWithoutGame` (no match, no change) |
| `Catalog.RenameLeavesNoGame` | gmes/js/gme.js:26 | after the /game/gi rewrite no "game" in any case remains, even where the inserted "gme" meets its neighbours |
| `Catalog.RenameWithoutGame` | gmes/js/gme.js:26 | a name with no case-insensitive "game" is returned unchanged |
| `Catalog.RenameIdempotent` | gmes/js/gme.js:26 | rewriting an already rewritten name changes nothing |
| `Catalog.RenameAtFirstGame` | gmes/js/gme.js:26 | the rewrite copies the text before the leftmost match, writes "gme" for the match, and continues after the match (the global regular-expression scan) |
| `Catalog.GameAtIsFoldedMatch` | gmes/js/gme.js:26 | a case-insensitive match of "game" at a position is a match of "game" in the lower-cased name there |
| `Text.FirstIndex` | gmes/js/gme.js:25 | the position found is the leftmost occurrence of the pattern; none is found only if the pattern occurs nowhere |
| `Text.ReplaceFirst` | gmes/js/gme.js:25 | a string without the pattern is unchanged; otherwise exactly the leftmost occurrence is replaced |
| `Text.Contains` | gmes/js/gme.js:99 | true exactly when the pattern occurs at some position |
| `Text.ContainsEmpty` | gmes/js/gme.js:99 | the empty term occurs in every name |
| `Text.LowerStr` | gmes/js/gme.js:97-99 | `toLowerCase` keeps the length and lower-cases each character in place (ASCII letters only) |
| `Text.LowerStrIdempotent` | gmes/js/gme.js:97-99 | lower-casing a lower-cased string changes nothing |
| `Text.Decimal` | gmes/js/gme.js:25 | the timestamp is rendered as at least one decimal digit, with a leading zero only for 0 |
| `Text.DecimalRoundTrip` | gmes/js/gme.js:25 | reading back the rendered digits gives the timestamp |
| `Seqs.Keep` | gmes/js/gme.js:23 | the filter result is no longer than its input; every element passes the test and comes from the input; every passing input element is kept |
| `Seqs.KeepIsExact` | gmes/js/gme.js:98-100 | the filter is a subsequence of its input; it keeps every occurrence of each passing element and none of the others |
| `Seqs.KeepAppend` | gmes/js/gme.js:98-100 | filtering a concatenation is concatenating the filtered parts |
| `Seqs.KeepIdempotent` | gmes/js/gme.js:98-100 | filtering twice with one test is filtering once |
| `Seqs.KeepSplitsMultiset` | gmes/js/gme.js:42-48 | the favorite part and the other part together hold each element exactly as often as the input |
| `Seqs.PartitionedSplits` | gmes/js/gme.js:42-48 | a sequence with all favorites first equals its favorite part followed by its other part |
| `Search.Matches` | gmes/js/gme.js:98-100 | the per-item test: an item passes exactly when its lower-cased name contains the lower-cased term, as `Search.Filter`'s contract states of the items kept |
| `Search.Filter` | gmes/js/gme.js:96-100 | the filtered view is a subsequence of the catalog that keeps every occurrence of each item whose lower-cased name contains the lower-cased term, and no other item |
| `Search.FilterEmptyTerm` | gmes/js/gme.js:97-100 | an empty term keeps the whole catalog |
| `Search.FilterIdempotent` | gmes/js/gme.js:96-102 | filtering the filtered view again with the same term changes nothing |
| `Search.FilterIgnoresTermCase` | gmes/js/gme.js:97 | a term and its lower case select the same items |
| `Search.FilterAppend` | gmes/js/gme.js:98-100 | each item is judged on its own: filtering a concatenated catalog concatenates the results |
| `Search.FilterFooExample` | gmes/js/gme.js:96-100 | searching "foo" in [Foo, Bar] gives [Foo] |
| `Favorites.IsFavorite` | gmes/js/gme.js:89 | the `some` test: some entry has the url; `Favorites.FindIndex` returns -1 exactly when it fails and `Favorites.UrlsListFavorites` equates it with the renderer's test |
| `Favorites.Urls` | gmes/js/gme.js:41 | the url list has one url per entry, each the url of the entry at the same position |
| `Favorites.UrlsListFavorites` | gmes/js/gme.js:41-89 | the renderer's url-list membership and the button's `some` test agree |
| `Favorites.FindIndex` | gmes/js/gme.js:75 | -1 exactly when no entry has the url; otherwise the first entry with that url |
| `Favorites.Toggle` | gmes/js/gme.js:75-80 | an absent url is appended with its title and nothing else changes; otherwise exactly the first entry with the url is removed and the rest keep their order |
| `Favorites.ToggleKeepsDistinct` | gmes/js/gme.js:75-80 | toggling keeps the favorites' urls pairwise distinct |
| `Favorites.ToggleFlips` | gmes/js/gme.js:75-80 | with distinct urls, each toggle flips whether the url is a favorite |
| `Favorites.ToggleLeavesOthers` | gmes/js/gme.js:75-80 | a toggle never changes whether any other url is a favorite |
| `Favorites.ToggleTwiceAbsent` | gmes/js/gme.js:75-80 | toggling an absent url twice restores the list exactly, whatever the titles |
| `Favorites.ToggleTwicePresent` | gmes/js/gme.js:75-80 | when no two favorites share a url (every toggle keeps it so, `Favorites.ToggleKeepsDistinct`), toggling a present url twice moves its entry to the end, carrying the second title |
| `Favorites.ToggleTwiceReorders` | gmes/js/gme.js:75-80 | [a, b] with a toggled twice becomes [b, a] |
| `Favorites.ButtonLabel` | gmes/js/gme.js:89-92 | the label is Favorited exactly when some entry has the url |
| `Favorites.ToggleFlipsLabel` | gmes/js/gme.js:74-92 | with distinct urls, a toggle always changes the button's label for that url |
| `Ordering.FavoritesFirst` | gmes/js/gme.js:41-48 | the grid order is a permutation of the filtered view; every favorite comes before every non-favorite; each group keeps its original order; every pair is ordered by the comparator |
| `Ordering.Compare` | gmes/js/gme.js:42-48 | the comparator returns -1, 0 or 1; 0 exactly when both items or neither are favorites, and negative exactly when only the first is |
| `Ordering.Insert` | gmes/js/gme.js:42 | one step of the stable sort: the new element goes in front of the first element it does not compare after; `Ordering.InsertIntoPartition` shows that this puts a favorite at the front and any other item at the front of the others |
| `Ordering.StableSort` | gmes/js/gme.js:42 | the sort of the filtered view; `Ordering.SortIsStablePartition` shows it is the stable partition (favorites then others, each in original order), `Ordering.FavoritesFirst` that it is a permutation, and `Ordering.StableSortUnique` that any stable sort under the comparator gives the same result |
| `Ordering.SortIsStablePartition` | gmes/js/gme.js:42-48 | sorting with the comparator gives the favorites in original order, then the rest in original order |
| `Ordering.InsertIntoPartition` | gmes/js/gme.js:42-48 | inserting into a favorites-then-others list puts a favorite at the front, and any other item at the front of the others |
| `Ordering.StableSortUnique` | gmes/js/gme.js:42-48 | every sequence ordered by the comparator in which equal items keep their relative order is the modelled sort's result |
| `Ordering.FavoritesFirstExample` | gmes/js/gme.js:41-48 | catalog [Foo (a), Bar (b)] with b a favorite renders as [Bar, Foo] |
| `Viewer.UpdateFavoriteButton` | gmes/js/gme.js:86-93 | the current url always becomes the argument; the label is Favorited exactly when the url is a favorite; nothing else changes |
| `Viewer.Play` | gmes/js/gme.js:105-131 | a missing url or a failed or non-ok fetch leaves the page unchanged and emits the matching warning naming the item or "Gme"; a success shows the fetched markup in the frame, the name or "Unnamed Gme" as title, the url as current url, and the label for the url |
| `Viewer.Close` | gmes/js/gme.js:134-142 | back to the grid with srcdoc emptied and blank src and srcdoc attributes left on the frame; title, current url and label unchanged |
| `Viewer.Refresh` | gmes/js/gme.js:144-153 | the page never changes; non-empty srcdoc is re-assigned and reloads; else a present src attribute is re-assigned, which loads its location exactly when the frame has no srcdoc attribute; else nothing happens |
| `Viewer.CloseThenRefresh` | gmes/js/gme.js:134-153 | after a close a refresh re-assigns the src attribute the close left behind, and nothing loads because the blank srcdoc attribute overrides it |
| `Viewer.PlayThenRefresh` | gmes/js/gme.js:105-153 | after a successful play with non-empty markup a refresh reloads the markup |
| `Widget.Start` | gmes/js/gme.js:1-5 | the initial state, with empty catalog and view and no open item, satisfies the invariants |
| `Widget.CatalogOf` | gmes/js/gme.js:19-31 | an unreadable or non-ok feed yields an empty catalog; records yield one item per listed record |
| `Widget.GridOf` | gmes/js/gme.js:41-65 | "No gmes found" exactly when the filtered view is empty; otherwise the cards are a permutation of it with favorites first |
| `Widget.Render` | gmes/js/gme.js:37-71 | rendering changes nothing but the favorite button's label, which, when cards are shown and an item is open, shows whether that item is a favorite; otherwise nothing changes |
| `Widget.ToggleFavorite` | gmes/js/gme.js:74-84 | the favorites are toggled; the current url becomes the toggled url; the button shows its new status; catalog, filtered view, view, frame and title are untouched |
| `Widget.Step` | gmes/js/gme.js:167-177 | only a load changes the catalog; only a load or a search changes the filtered view; only the favorite button changes the favorites; only a card or close click changes the view; a warning leaves the state unchanged |
| `Widget.RenderKeepsValid` | gmes/js/gme.js:50-70 | rendering restores the button invariant when cards are shown, and keeps it otherwise |
| `Widget.StepKeepsValid` | gmes/js/gme.js:18-177 | every handler keeps the invariants: the filtered view is a subsequence of the catalog; the button shows the open url's status; an item is open whenever the frame is shown; the frame never has a src attribute without a srcdoc one |
| `Widget.RefreshNeverNavigates` | gmes/js/gme.js:105-153 | in every valid state the refresh button changes no state and never loads the src location |
| `Widget.StepKeepsDistinctUrls` | gmes/js/gme.js:74-84 | no handler introduces a duplicate favorite url |
| `Widget.FavoriteClickFlips` | gmes/js/gme.js:172-175 | with distinct favorites, clicking the button for an open item flips its favorite status and its label |
| `Widget.SearchTwice` | gmes/js/gme.js:96-102 | handling the same search twice leaves the state as handling it once |
| `Widget.PlayFailureExample` | gmes/js/gme.js:128-130 | opening "Foo" over a failing network leaves the state unchanged and warns "Foo - failed to load game content." |

## Left out

- Network I/O (lines 20-21, 109-111) is not modelled. Its outcomes are
  inputs: `Widget.Feed` and `Viewer.Fetched`. A feed whose JSON cannot be read
  counts as `FeedUnreadable`. So does a feed holding a `null` record, because
  reading its `id` on line 23 throws. So does a listed record (one whose id
  is not -1) whose `url`, `name` or `cover` is not a string, because the map
  then throws; the loader catches both. A record with id -1 is dropped by
  line 23 before the map runs, whatever its other fields hold.
- `Date.now()` is an input, one reading per listed record. The reading in the
  feed's own request url is not modelled.
- `localStorage` and `JSON.parse`/`JSON.stringify` (lines 4, 81) are foreign
  calls. The stored list is the argument of `Widget.Start`, and writes are
  not modelled.
- The following DOM and UI plumbing is not modelled:
  - building the card HTML and the empty-state markup (lines 51-65);
  - the icon library (line 67);
  - `scrollTo` (line 127);
  - fullscreen and its vendor-prefixed probing (lines 155-159);
  - `console.log` (line 163);
  - the `style.display` writes, reduced to `Viewer.View`.
  A card's inline `onclick` string is not modelled either: `Widget.Event`
  carries the clicked url and name directly. In the source, a name holding a
  quote character would break that handler.
- The null checks on missing DOM elements (lines 38, 88, 145, 169, 172) are
  not modelled. The model assumes every element exists.
- The frame's `src` is modelled only by whether the attribute is present,
  which decides every truthiness test of it. Its resolved URL is not
  modelled, and neither is the page markup: the frame is taken to start
  without a `src` or `srcdoc` attribute. The documents the frame loads are
  not modelled; `Viewer.Reload` records only what a refresh re-assigns and
  whether re-assigning `src` loads anything.
- `Text.LowerStr` folds ASCII letters only. `toLowerCase` (lines 97, 99)
  folds all of Unicode. The `/game/gi` rewrite needs no such caveat: without
  the `u` flag, ECMA-262 case-insensitive matching never maps a non-ASCII
  character to an ASCII one, so ASCII folding is exact for "game".
- `String.prototype.replace` treats `$` in the replacement text specially.
  The three replacement strings used (lines 25-27) contain no `$`, so that
  handling is not modelled.
- The optional chaining on `name` (line 99) is not modelled. Names are always
  strings here.
- Concurrency is not modelled: overlapping asynchronous loads and plays, and
  the wiring of event listeners (lines 167-177). `Widget.Step` handles one
  completed event at a time.

=== FILE: catalog.dfy ===
/** Catalog normalisation (`loadGmes`, gmes/js/gme.js:22-28): the remote
    feed's records become the items the grid shows. The record whose id is
    -1 (a "suggest a game" entry) is dropped; every other record is mapped
    to an item whose url points into the html CDN with a cache-busting
    timestamp, whose cover points into the covers CDN, and whose name has
    every "game" rewritten to "gme" regardless of case. */
module Catalog {
  import opened Seqs
  import opened Text

  /** One record of the remote feed, with the fields the loader reads. */
  datatype RawRecord = RawRecord(id: int, url: string, name: string, cover: string)

  /** One playable item of the catalog. */
  datatype Item = Item(url: string, name: string, cover: string)

  const SuggestionId: int := -1
  const HtmlBase: string := "https://cdn.jsdelivr.net/gh/gn-math/html@main"
  const HtmlPlaceholder: string := "{HTML_URL}"
  const CoverBase: string := "https://cdn.jsdelivr.net/gh/gn-math/covers@main"
  const CoverPlaceholder: string := "{COVER_URL}"
  const StampQuery: string := "?t="

  /** The filter of line 23: every record except the sentinel. */
  predicate Listed(g: RawRecord)
  {
    g.id != SuggestionId
  }

  // ---------------------------------------------------------------------
  // The name rewrite `name.replace(/game/gi, 'gme')`.
  //
  // Under the `i` flag without `u`, a regular expression compares
  // characters after upper-casing them and never lets a non-ASCII character
  // match an ASCII one, so for the all-ASCII pattern "game" ASCII case
  // folding decides a match exactly.
  // ---------------------------------------------------------------------

  /** "game", in any mix of cases, starts at position `i` of `s`. */
  predicate GameAt(s: string, i: nat)
  {
    && i + 4 <= |s|
    && Lower(s[i]) == 'g' && Lower(s[i + 1]) == 'a'
    && Lower(s[i + 2]) == 'm' && Lower(s[i + 3]) == 'e'
  }

  ghost predicate MentionsGame(s: string)
  {
    exists i: nat :: GameAt(s, i)
  }

  /** `GameAt` is a match of "game" in the lower-cased string. */
  lemma GameAtIsFoldedMatch(s: string, i: nat)
    ensures GameAt(s, i) <==> MatchesAt(LowerStr(s), "game", i)
  {
    var l := LowerStr(s);
    if i + 4 <= |s| {
      var w := l[i..i + 4];
      assert w[0] == Lower(s[i]) && w[1] == Lower(s[i + 1]);
      assert w[2] == Lower(s[i + 2]) && w[3] == Lower(s[i + 3]);
      if GameAt(s, i) {
        assert w == "game";
      }
    }
  }

  /** The global, case-insensitive replacement: scanning left to right, a
      match is replaced and the scan resumes after it; otherwise one
      character is kept and the scan moves on by one. */
  function RenameGames(s: string): (r: string)
    ensures |r| <= |s|
    decreases |s|
  {
    if |s| < 4 then s
    else if GameAt(s, 0) then "gme" + RenameGames(s[4..])
    else [s[0]] + RenameGames(s[1..])
  }

  /** One step of the scan, seen from the outside. */
  lemma RenameStep(s: string)
    requires |s| > 0
    ensures |RenameGames(s)| > 0
    ensures GameAt(s, 0) ==> RenameGames(s)[0] == 'g'
    ensures !GameAt(s, 0) ==> RenameGames(s) == [s[0]] + RenameGames(s[1..])
  {
    if |s| < 4 {
      assert RenameGames(s[1..]) == s[1..];
      assert s == [s[0]] + s[1..];
    }
  }

  /** A name that never mentions "game" is left untouched. */
  lemma {:induction false} RenameWithoutGame(s: string)
    ensures !MentionsGame(s) ==> RenameGames(s) == s
  {
    if |s| >= 4 && !MentionsGame(s) {
      assert !GameAt(s, 0);
      assert !MentionsGame(s[1..]) by {
        forall j: nat
          ensures !GameAt(s[1..], j)
        {
          assert !GameAt(s, j + 1);
        }
      }
      RenameWithoutGame(s[1..]);
      assert s == [s[0]] + s[1..];
    }
  }

  /** A "game" inside `prefix + t` that starts past the prefix lies in `t`. */
  lemma GameAtShift(prefix: string, t: string, j: nat)
    requires j >= |prefix|
    ensures GameAt(prefix + t, j) ==> GameAt(t, j - |prefix|)
  {
    var r := prefix + t;
    if GameAt(r, j) {
      var k := j - |prefix|;
      assert r[j] == t[k] && r[j + 1] == t[k + 1];
      assert r[j + 2] == t[k + 2] && r[j + 3] == t[k + 3];
    }
  }

  /** A kept first character cannot start a "game" with the rewritten rest:
      that would need the original to start with one. */
  lemma NoGameAtKeptHead(s: string)
    requires |s| >= 4 && !GameAt(s, 0)
    ensures !GameAt([s[0]] + RenameGames(s[1..]), 0)
  {
    var u := s[1..];
    var r := [s[0]] + RenameGames(u);
    if GameAt(r, 0) {
      RenameStep(u);
      assert RenameGames(u) == [s[1]] + RenameGames(s[2..]);
      var v := s[2..];
      assert u[1..] == v;
      RenameStep(v);
      assert RenameGames(v) == [s[2]] + RenameGames(s[3..]);
      var w := s[3..];
      assert v[1..] == w;
      RenameStep(w);
      assert false;
    }
  }

  /** No "game" survives the rewrite, in any case: the inserted "gme" can
      never complete a new match with its neighbours. */
  lemma {:induction false} RenameLeavesNoGame(s: string)
    ensures !MentionsGame(RenameGames(s))
  {
    var r := RenameGames(s);
    if |s| < 4 {
    } else if GameAt(s, 0) {
      var t := RenameGames(s[4..]);
      RenameLeavesNoGame(s[4..]);
      assert r == "gme" + t;
      forall j: nat
        ensures !GameAt(r, j)
      {
        if j >= 3 {
          GameAtShift("gme", t, j);
        }
      }
    } else {
      var t := RenameGames(s[1..]);
      RenameLeavesNoGame(s[1..]);
      assert r == [s[0]] + t;
      forall j: nat
        ensures !GameAt(r, j)
      {
        if j >= 1 {
          GameAtShift([s[0]], t, j);
        } else {
          NoGameAtKeptHead(s);
        }
      }
    }
  }

  /** Rewriting twice is rewriting once. */
  lemma RenameIdempotent(s: string)
    ensures RenameGames(RenameGames(s)) == RenameGames(s)
  {
    RenameLeavesNoGame(s);
    RenameWithoutGame(RenameGames(s));
  }

  /** `i` is the leftmost position of a case-insensitive "game". */
  predicate FirstGameAt(s: string, i: nat)
  {
    GameAt(s, i) && forall j: nat :: j < i ==> !GameAt(s, j)
  }

  /** The rewrite follows the regular-expression scan: everything before the
      leftmost match is copied, the match becomes "gme", and the rewrite
      continues right after the match. */
  lemma {:induction false} RenameAtFirstGame(s: string, i: nat)
    requires FirstGameAt(s, i)
    ensures RenameGames(s) == s[..i] + "gme" + RenameGames(s[i + 4..])
    decreases i
  {
    if i > 0 {
      var u := s[1..];
      assert !GameAt(s, 0);
      RenameStep(s);
      assert FirstGameAt(u, i - 1) by {
        assert GameAt(s, i);
        forall j: nat | j < i - 1
          ensures !GameAt(u, j)
        {
          assert !GameAt(s, j + 1);
        }
      }
      RenameAtFirstGame(u, i - 1);
      assert u[i - 1 + 4..] == s[i + 4..];
      assert s[..i] == [s[0]] + u[..i - 1];
    }
  }

  // ---------------------------------------------------------------------
  // Mapping one record to one item.
  // ---------------------------------------------------------------------

  /** The url of an item: the html CDN, the record's path with the first
      `{HTML_URL}` removed, and `?t=` with the clock reading. */
  function ItemUrl(path: string, stamp: nat): (url: string)
    ensures |HtmlBase| <= |url| && url[..|HtmlBase|] == HtmlBase
    ensures (forall j: nat :: !MatchesAt(path, HtmlPlaceholder, j)) ==>
              url == HtmlBase + path + StampQuery + Decimal(stamp)
    ensures forall i: nat :: FirstMatch(path, HtmlPlaceholder, i) ==>
              url == HtmlBase + (path[..i] + path[i + |HtmlPlaceholder|..]) + StampQuery + Decimal(stamp)
  {
    var p := ReplaceFirst(path, HtmlPlaceholder, "");
    assert forall i: nat :: FirstMatch(path, HtmlPlaceholder, i) ==>
             p == path[..i] + path[i + |HtmlPlaceholder|..] by {
      forall i: nat | FirstMatch(path, HtmlPlaceholder, i)
        ensures p == path[..i] + path[i + |HtmlPlaceholder|..]
      {
        assert path[..i] + "" == path[..i];
      }
    }
    var url := HtmlBase + p + StampQuery + Decimal(stamp);
    assert url == HtmlBase + (p + StampQuery + Decimal(stamp));
    url
  }

  /** The cover of an item: the first `{COVER_URL}` becomes the covers CDN. */
  function CoverUrl(cover: string): (r: string)
    ensures (forall j: nat :: !MatchesAt(cover, CoverPlaceholder, j)) ==> r == cover
    ensures forall i: nat :: FirstMatch(cover, CoverPlaceholder, i) ==>
              r == cover[..i] + CoverBase + cover[i + |CoverPlaceholder|..]
  {
    ReplaceFirst(cover, CoverPlaceholder, CoverBase)
  }

  /** The mapping of lines 24-28 for one record and one clock reading. */
  function ToItem(g: RawRecord, stamp: nat): (item: Item)
    ensures !MentionsGame(item.name)
    ensures !MentionsGame(g.name) ==> item.name == g.name
  {
    RenameLeavesNoGame(g.name);
    RenameWithoutGame(g.name);
    Item(ItemUrl(g.url, stamp), RenameGames(g.name), CoverUrl(g.cover))
  }

  /** Lines 22-28: drop the sentinel, then map every remaining record, the
      k-th one with the k-th reading of the clock (`Date.now()` is read once
      per item, inside the map). */
  function Normalize(raw: seq<RawRecord>, stamps: seq<nat>): (items: seq<Item>)
    requires |stamps| == |Keep(raw, Listed)|
    ensures |items| == |Keep(raw, Listed)|
  {
    var kept := Keep(raw, Listed);
    seq(|kept|, i requires 0 <= i < |kept| => ToItem(kept[i], stamps[i]))
  }

  /** Normalisation works record by record: a single listed record gives
      one item, the sentinel gives none. */
  lemma NormalizeOne(g: RawRecord, stamps: seq<nat>)
    requires |stamps| == |Keep([g], Listed)|
    ensures g.id == SuggestionId ==> Normalize([g], stamps) == []
    ensures g.id != SuggestionId ==> Normalize([g], stamps) == [ToItem(g, stamps[0])]
  {
    assert [g][1..] == [];
  }

  /** Normalisation distributes over concatenation of feeds, consuming the
      clock readings in order, so items keep the order of their records. */
  lemma NormalizeAppend(a: seq<RawRecord>, b: seq<RawRecord>, stamps: seq<nat>)
    requires |stamps| == |Keep(a + b, Listed)|
    ensures Keep(a + b, Listed) == Keep(a, Listed) + Keep(b, Listed)
    ensures Normalize(a + b, stamps)
         == Normalize(a, stamps[..|Keep(a, Listed)|]) + Normalize(b, stamps[|Keep(a, Listed)|..])
  {
    KeepAppend(a, b, Listed);
    var ka := Keep(a, Listed);
    var kb := Keep(b, Listed);
    var n := |ka|;
    var left := Normalize(a, stamps[..n]);
    var right := Normalize(b, stamps[n..]);
    var whole := Normalize(a + b, stamps);
    assert |whole| == |left| + |right|;
    forall i | 0 <= i < |whole|
      ensures whole[i] == (left + right)[i]
    {
      assert whole[i] == ToItem((ka + kb)[i], stamps[i]);
      if i < n {
        assert (ka + kb)[i] == ka[i];
        assert left[i] == ToItem(ka[i], stamps[..n][i]);
      } else {
        assert (ka + kb)[i] == kb[i - n];
        assert right[i - n] == ToItem(kb[i - n], stamps[n..][i - n]);
      }
    }
  }

  /** The sentinel record changes nothing, wherever it appears in the feed. */
  lemma {:induction false} SentinelIgnored(a: seq<RawRecord>, b: seq<RawRecord>, sentinel: RawRecord, stamps: seq<nat>)
    requires sentinel.id == SuggestionId
    requires |stamps| == |Keep(a + b, Listed)|
    ensures |Keep(a + [sentinel] + b, Listed)| == |stamps|
    ensures Normalize(a + [sentinel] + b, stamps) == Normalize(a + b, stamps)
  {
    var whole := a + [sentinel] + b;
    KeepAppend(a, [sentinel], Listed);
    KeepAppend(a + [sentinel], b, Listed);
    KeepAppend(a, b, Listed);
    assert Keep([sentinel], Listed) == [] by {
      assert [sentinel][1..] == [];
    }
    assert Keep(a + [sentinel], Listed) == Keep(a, Listed);
    assert Keep(whole, Listed) == Keep(a + b, Listed);
  }

}

=== FILE: favorites.dfy ===
/** The favorites list (`toggleFavorite` and `updateFavoriteButton`,
    gmes/js/gme.js:74-93): a list of entries keyed by url, changed only by
    toggling one url, and the label of the favorite button derived from it. */
module Favorites {

  /** One stored favorite. */
  datatype FavoriteEntry = FavoriteEntry(url: string, title: string)

  /** The text of the favorite button (its icon is not modelled). */
  datatype Label = Favorited | NotFavorited

  /** Some entry has this url (`favorites.some(f => f.url === url)`). */
  predicate IsFavorite(favs: seq<FavoriteEntry>, url: string)
  {
    exists k :: 0 <= k < |favs| && favs[k].url == url
  }

  /** The urls of the entries, in order (`favorites.map(f => f.url)`). */
  function Urls(favs: seq<FavoriteEntry>): (urls: seq<string>)
    ensures |urls| == |favs|
    ensures forall k :: 0 <= k < |favs| ==> urls[k] == favs[k].url
  {
    seq(|favs|, k requires 0 <= k < |favs| => favs[k].url)
  }

  /** The renderer's membership test on the url list and the button's test
      on the entries agree. */
  lemma UrlsListFavorites(favs: seq<FavoriteEntry>, url: string)
    ensures url in Urls(favs) <==> IsFavorite(favs, url)
  {
    var urls := Urls(favs);
    if url in urls {
      var k :| 0 <= k < |urls| && urls[k] == url;
      assert favs[k].url == url;
    }
  }

  /** `i` is the first position whose entry has this url. */
  predicate FirstWithUrl(favs: seq<FavoriteEntry>, url: string, i: int)
  {
    0 <= i < |favs| && favs[i].url == url && forall k :: 0 <= k < i ==> favs[k].url != url
  }

  /** `favorites.findIndex(f => f.url === url)`: -1 when no entry has the url. */
  function FindIndex(favs: seq<FavoriteEntry>, url: string): (r: int)
    ensures -1 <= r < |favs|
    ensures r == -1 <==> !IsFavorite(favs, url)
    ensures r != -1 ==> FirstWithUrl(favs, url, r)
  {
    if favs == [] then -1
    else if favs[0].url == url then 0
    else
      var k := FindIndex(favs[1..], url);
      if k == -1 then -1 else k + 1
  }

  /** Lines 75-80: append the entry when the url is absent, otherwise remove
      the first entry with that url. */
  function Toggle(favs: seq<FavoriteEntry>, url: string, title: string): (r: seq<FavoriteEntry>)
    ensures !IsFavorite(favs, url) ==> r == favs + [FavoriteEntry(url, title)]
    ensures forall i :: FirstWithUrl(favs, url, i) ==> r == favs[..i] + favs[i + 1..]
  {
    var index := FindIndex(favs, url);
    if index == -1 then favs + [FavoriteEntry(url, title)]
    else favs[..index] + favs[index + 1..]
  }

  /** No two entries share a url. */
  predicate DistinctUrls(favs: seq<FavoriteEntry>)
  {
    forall i, j :: 0 <= i < j < |favs| ==> favs[i].url != favs[j].url
  }

  /** Toggling keeps urls distinct: it appends only an absent url. */
  lemma ToggleKeepsDistinct(favs: seq<FavoriteEntry>, url: string, title: string)
    requires DistinctUrls(favs)
    ensures DistinctUrls(Toggle(favs, url, title))
  {
    var r := Toggle(favs, url, title);
    if IsFavorite(favs, url) {
      var i := FindIndex(favs, url);
      assert r == favs[..i] + favs[i + 1..];
      forall a, b | 0 <= a < b < |r|
        ensures r[a].url != r[b].url
      {
        var a' := if a < i then a else a + 1;
        var b' := if b < i then b else b + 1;
        assert r[a] == favs[a'] && r[b] == favs[b'];
      }
    }
  }

  /** With distinct urls, every toggle flips whether the url is a favorite. */
  lemma ToggleFlips(favs: seq<FavoriteEntry>, url: string, title: string)
    requires DistinctUrls(favs)
    ensures IsFavorite(Toggle(favs, url, title), url) <==> !IsFavorite(favs, url)
  {
    var r := Toggle(favs, url, title);
    if IsFavorite(favs, url) {
      var i := FindIndex(favs, url);
      assert r == favs[..i] + favs[i + 1..];
    } else {
      assert r[|favs|].url == url;
    }
  }

  /** A toggle affects no other url. */
  lemma ToggleLeavesOthers(favs: seq<FavoriteEntry>, url: string, title: string, other: string)
    requires other != url
    ensures IsFavorite(Toggle(favs, url, title), other) <==> IsFavorite(favs, other)
  {
    var r := Toggle(favs, url, title);
    if IsFavorite(favs, url) {
      var i := FindIndex(favs, url);
      assert r == favs[..i] + favs[i + 1..];
      if IsFavorite(favs, other) {
        var k :| 0 <= k < |favs| && favs[k].url == other;
        assert k != i;
        var k' := if k < i then k else k - 1;
        assert r[k'] == favs[k];
      }
      if IsFavorite(r, other) {
        var k :| 0 <= k < |r| && r[k].url == other;
        var k' := if k < i then k else k + 1;
        assert r[k] == favs[k'];
      }
    } else {
      if IsFavorite(favs, other) {
        var k :| 0 <= k < |favs| && favs[k].url == other;
        assert r[k] == favs[k];
      }
      if IsFavorite(r, other) {
        var k :| 0 <= k < |r| && r[k].url == other;
        assert k < |favs|;
        assert r[k] == favs[k];
      }
    }
  }

  /** Toggling an absent url twice restores the list exactly, whatever
      titles the two toggles carry. */
  lemma ToggleTwiceAbsent(favs: seq<FavoriteEntry>, url: string, t1: string, t2: string)
    requires !IsFavorite(favs, url)
    ensures Toggle(Toggle(favs, url, t1), url, t2) == favs
  {
    var once := Toggle(favs, url, t1);
    assert once == favs + [FavoriteEntry(url, t1)];
    assert FirstWithUrl(once, url, |favs|);
    assert once[..|favs|] == favs;
  }

  /** Toggling a present url twice does not restore the list: the entry
      comes back at the end, carrying the second toggle's title. */
  lemma ToggleTwicePresent(favs: seq<FavoriteEntry>, url: string, t1: string, t2: string, i: int)
    requires DistinctUrls(favs)
    requires 0 <= i < |favs| && favs[i].url == url
    ensures Toggle(Toggle(favs, url, t1), url, t2) == favs[..i] + favs[i + 1..] + [FavoriteEntry(url, t2)]
  {
    assert FirstWithUrl(favs, url, i);
    ToggleFlips(favs, url, t1);
  }

  /** A concrete case of the above: two favorites, the first toggled off
      and on again, end up in the other order. */
  lemma ToggleTwiceReorders()
    ensures var favs := [FavoriteEntry("a", "A"), FavoriteEntry("b", "B")];
            Toggle(Toggle(favs, "a", "A"), "a", "A") == [FavoriteEntry("b", "B"), FavoriteEntry("a", "A")]
  {
    var favs := [FavoriteEntry("a", "A"), FavoriteEntry("b", "B")];
    ToggleTwicePresent(favs, "a", "A", "A", 0);
  }

  /** Lines 89-92: the button reads "Favorited" exactly when the url is a
      favorite. */
  function ButtonLabel(favs: seq<FavoriteEntry>, url: string): (l: Label)
    ensures l == Favorited <==> IsFavorite(favs, url)
  {
    if IsFavorite(favs, url) then Favorited else NotFavorited
  }

  /** With distinct urls, a toggle always changes the button's label. */
  lemma ToggleFlipsLabel(favs: seq<FavoriteEntry>, url: string, title: string)
    requires DistinctUrls(favs)
    ensures ButtonLabel(Toggle(favs, url, title), url) != ButtonLabel(favs, url)
  {
    ToggleFlips(favs, url, title);
  }

}

=== FILE: options.dfy ===
/** An optional value, used where the widget works with "no result" (a search
    that finds nothing, an effect that may or may not be emitted). */
module Options {

  datatype Option<+T> = None | Some(value: T)

}

=== FILE: ordering.dfy ===
/** The favorites-first order of the grid (`renderGmes`, gmes/js/gme.js:41-48).
    A copy of the filtered view is sorted with a three-valued comparator that
    only asks whether each item's url is among the favorites' urls. The sort
    is `Array.prototype.sort`, which ECMA-262 (section 23.1.3.30 of the 2023
    edition) requires to be stable; it is modelled here by a stable insertion
    sort, and `StableSortUnique` shows that every stable sort under this
    comparator yields the same sequence, so nothing depends on which
    algorithm an engine uses. */
module Ordering {
  import opened Seqs
  import opened Catalog
  import opened Favorites

  /** The item's url is among the given favorite urls (line 43). */
  function IsFav(urls: seq<string>): Item -> bool
  {
    (g: Item) => g.url in urls
  }

  /** The comparator of lines 42-48: favorites before non-favorites, every
      other pair equal. */
  function Compare(urls: seq<string>, a: Item, b: Item): (r: int)
    ensures -1 <= r <= 1
    ensures r == 0 <==> (a.url in urls <==> b.url in urls)
    ensures r < 0 <==> a.url in urls && b.url !in urls
  {
    var aFav := a.url in urls;
    var bFav := b.url in urls;
    if aFav && !bFav then -1
    else if !aFav && bFav then 1
    else 0
  }

  /** Insert `x` in front of the first element it does not compare after,
      so that `x` stays ahead of every element it ties with. */
  function Insert(urls: seq<string>, x: Item, t: seq<Item>): seq<Item>
  {
    if t == [] then [x]
    else if Compare(urls, x, t[0]) <= 0 then [x] + t
    else [t[0]] + Insert(urls, x, t[1..])
  }

  /** A stable sort under `Compare`: each element is inserted into the sorted
      rest of the sequence, which it preceded. */
  function StableSort(urls: seq<string>, s: seq<Item>): seq<Item>
  {
    if s == [] then [] else Insert(urls, s[0], StableSort(urls, s[1..]))
  }

  /** Inserting into a favorites-then-others sequence puts a favorite at the
      very front and any other item at the front of the others. */
  lemma {:induction false} InsertIntoPartition(urls: seq<string>, x: Item, f: seq<Item>, n: seq<Item>)
    requires forall i :: 0 <= i < |f| ==> f[i].url in urls
    requires forall i :: 0 <= i < |n| ==> n[i].url !in urls
    ensures Insert(urls, x, f + n) == if x.url in urls then [x] + f + n else f + [x] + n
  {
    if f == [] {
      assert f + n == n;
    } else {
      assert (f + n)[0] == f[0];
      assert (f + n)[1..] == f[1..] + n;
      if x.url !in urls {
        InsertIntoPartition(urls, x, f[1..], n);
        assert f == [f[0]] + f[1..];
      }
    }
  }

  /** The favorites of `s` in order, written without a test function so
      that the sort's proof stays small; `FavsOfIsKeep` relates it to `Keep`. */
  function FavsOf(urls: seq<string>, s: seq<Item>): (r: seq<Item>)
    ensures forall i :: 0 <= i < |r| ==> r[i].url in urls
  {
    if s == [] then []
    else (if s[0].url in urls then [s[0]] else []) + FavsOf(urls, s[1..])
  }

  /** The other items of `s` in order; `OthersOfIsKeep` relates it to `Keep`. */
  function OthersOf(urls: seq<string>, s: seq<Item>): (r: seq<Item>)
    ensures forall i :: 0 <= i < |r| ==> r[i].url !in urls
  {
    if s == [] then []
    else (if s[0].url in urls then [] else [s[0]]) + OthersOf(urls, s[1..])
  }

  lemma {:induction false} FavsOfIsKeep(urls: seq<string>, s: seq<Item>)
    ensures FavsOf(urls, s) == Keep(s, IsFav(urls))
  {
    if s != [] {
      FavsOfIsKeep(urls, s[1..]);
    }
  }

  lemma {:induction false} OthersOfIsKeep(urls: seq<string>, s: seq<Item>)
    ensures OthersOf(urls, s) == Keep(s, Not(IsFav(urls)))
  {
    if s != [] {
      OthersOfIsKeep(urls, s[1..]);
    }
  }

  /** Each insertion step of the sort keeps the favorites-then-others shape. */
  lemma {:induction false} SortIsFavsThenOthers(urls: seq<string>, s: seq<Item>)
    ensures StableSort(urls, s) == FavsOf(urls, s) + OthersOf(urls, s)
  {
    if s != [] {
      SortIsFavsThenOthers(urls, s[1..]);
      InsertIntoPartition(urls, s[0], FavsOf(urls, s[1..]), OthersOf(urls, s[1..]));
    }
  }

  /** The stable sort is the stable partition: the favorites in their
      original order, then everything else in its original order. */
  lemma SortIsStablePartition(urls: seq<string>, s: seq<Item>)
    ensures StableSort(urls, s) == Keep(s, IsFav(urls)) + Keep(s, Not(IsFav(urls)))
  {
    SortIsFavsThenOthers(urls, s);
    FavsOfIsKeep(urls, s);
    OthersOfIsKeep(urls, s);
  }

  /** Taking the favorites part of a partition gives the favorites, and
      the other part gives the others. */
  lemma {:induction false} PartsOfPartition(urls: seq<string>, f: seq<Item>, n: seq<Item>)
    requires forall i :: 0 <= i < |f| ==> IsFav(urls)(f[i])
    requires forall i :: 0 <= i < |n| ==> Not(IsFav(urls))(n[i])
    ensures Keep(f + n, IsFav(urls)) == f
    ensures Keep(f + n, Not(IsFav(urls))) == n
  {
    KeepAppend(f, n, IsFav(urls));
    KeepAppend(f, n, Not(IsFav(urls)));
    KeepAll(f, IsFav(urls));
    KeepNone(n, IsFav(urls));
    KeepNone(f, Not(IsFav(urls)));
    KeepAll(n, Not(IsFav(urls)));
  }

  /** The grid order of lines 41-48 for a filtered view and the favorites:
      a permutation of the view, favorites first, each group in its original
      order, and ordered by the comparator throughout. */
  function FavoritesFirst(filtered: seq<Item>, favs: seq<FavoriteEntry>): (r: seq<Item>)
    ensures multiset(r) == multiset(filtered)
    ensures Partitioned(r, IsFav(Urls(favs)))
    ensures Keep(r, IsFav(Urls(favs))) == Keep(filtered, IsFav(Urls(favs)))
    ensures Keep(r, Not(IsFav(Urls(favs)))) == Keep(filtered, Not(IsFav(Urls(favs))))
    ensures forall i, j :: 0 <= i < j < |r| ==> Compare(Urls(favs), r[i], r[j]) <= 0
  {
    var urls := Urls(favs);
    var f := Keep(filtered, IsFav(urls));
    var n := Keep(filtered, Not(IsFav(urls)));
    SortIsStablePartition(urls, filtered);
    KeepSplitsMultiset(filtered, IsFav(urls));
    PartsOfPartition(urls, f, n);
    assert forall i :: 0 <= i < |n| ==> Not(IsFav(urls))(n[i]);
    StableSort(urls, filtered)
  }

  /** Any sequence that an ECMA-conforming sort could return, that is one
      ordered by the comparator in which items comparing equal keep their
      original relative order, is the one `StableSort` returns. */
  lemma {:induction false} StableSortUnique(urls: seq<string>, s: seq<Item>, r: seq<Item>)
    requires forall i, j :: 0 <= i < j < |r| ==> Compare(urls, r[i], r[j]) <= 0
    requires Keep(r, IsFav(urls)) == Keep(s, IsFav(urls))
    requires Keep(r, Not(IsFav(urls))) == Keep(s, Not(IsFav(urls)))
    ensures r == StableSort(urls, s)
  {
    assert Partitioned(r, IsFav(urls)) by {
      forall i, j | 0 <= i < j < |r| && IsFav(urls)(r[j])
        ensures IsFav(urls)(r[i])
      {
        assert Compare(urls, r[i], r[j]) <= 0;
      }
    }
    PartitionedSplits(r, IsFav(urls));
    SortIsStablePartition(urls, s);
  }

  /** The grid for catalog [Foo (url a), Bar (url b)] with b a favorite
      shows Bar, then Foo. */
  lemma FavoritesFirstExample()
    ensures FavoritesFirst([Item("a", "Foo", ""), Item("b", "Bar", "")], [FavoriteEntry("b", "Bar")])
         == [Item("b", "Bar", ""), Item("a", "Foo", "")]
  {
    var foo := Item("a", "Foo", "");
    var bar := Item("b", "Bar", "");
    var urls := Urls([FavoriteEntry("b", "Bar")]);
    assert urls == ["b"];
    assert Compare(urls, foo, bar) == 1;
    assert [foo, bar][1..] == [bar];
    assert [bar][1..] == [];
    assert StableSort(urls, [bar]) == [bar];
    assert Insert(urls, foo, [bar]) == [bar, foo];
  }

}

=== FILE: search.dfy ===
/** The search box (`filterGmes`, gmes/js/gme.js:96-102): the filtered view
    is the full catalog narrowed to the items whose lower-cased name contains
    the lower-cased term. */
module Search {
  import opened Seqs
  import opened Text
  import opened Catalog

  /** The per-item test of lines 98-100 for one search term. */
  function Matches(term: string): Item -> bool
  {
    (g: Item) => Contains(LowerStr(g.name), LowerStr(term))
  }

  /** The filtered view for `term`: the order-preserving subsequence of the
      catalog holding every occurrence of every matching item and nothing
      else. */
  function Filter(catalog: seq<Item>, term: string): (r: seq<Item>)
    ensures Subsequence(r, catalog)
    ensures forall g :: multiset(r)[g] ==
              if Contains(LowerStr(g.name), LowerStr(term)) then multiset(catalog)[g] else 0
  {
    KeepIsExact(catalog, Matches(term));
    Keep(catalog, Matches(term))
  }

  /** An empty search shows the whole catalog. */
  lemma FilterEmptyTerm(catalog: seq<Item>)
    ensures Filter(catalog, "") == catalog
  {
    forall i | 0 <= i < |catalog|
      ensures Matches("")(catalog[i])
    {
      ContainsEmpty(LowerStr(catalog[i].name));
    }
    KeepAll(catalog, Matches(""));
  }

  /** Searching the search result again for the same term finds it all. */
  lemma {:induction false} FilterIdempotent(catalog: seq<Item>, term: string)
    ensures Filter(Filter(catalog, term), term) == Filter(catalog, term)
  {
    KeepIdempotent(catalog, Matches(term));
  }

  /** The case of the term does not matter. */
  lemma {:induction false} FilterIgnoresTermCase(catalog: seq<Item>, term: string)
    ensures Filter(catalog, term) == Filter(catalog, LowerStr(term))
  {
    LowerStrIdempotent(term);
    KeepCongruent(catalog, Matches(term), Matches(LowerStr(term)));
  }

  /** Each catalog item is judged on its own: searching a catalog made of
      two parts is searching each part. */
  lemma {:induction false} FilterAppend(a: seq<Item>, b: seq<Item>, term: string)
    ensures Filter(a + b, term) == Filter(a, term) + Filter(b, term)
  {
    KeepAppend(a, b, Matches(term));
  }

  /** Searching "foo" in a catalog of "Foo" and "Bar" finds just "Foo". */
  lemma FilterFooExample()
    ensures Filter([Item("a", "Foo", ""), Item("b", "Bar", "")], "foo") == [Item("a", "Foo", "")]
  {
    var foo := Item("a", "Foo", "");
    var bar := Item("b", "Bar", "");
    assert LowerStr("Foo") == "foo";
    assert LowerStr("Bar") == "bar";
    assert MatchesAt("foo", "foo", 0);
    assert Matches("foo")(foo);
    forall j: nat
      ensures !MatchesAt("bar", "foo", j)
    {
      if j == 0 {
        assert "bar"[0..3][0] == 'b';
      }
    }
    assert !Matches("foo")(bar);
    assert [foo, bar][1..] == [bar];
    assert [bar][1..] == [];
  }

}

=== FILE: seqs.dfy ===
/** Order-preserving selection from sequences: the `Array.prototype.filter`
    the widget uses to drop the sentinel record, to search the catalog and,
    through the partition it induces, to put favorites first. */
module Seqs {

  /** The elements of `s` satisfying `p`, in their original order. */
  function Keep<T(==)>(s: seq<T>, p: T -> bool): (r: seq<T>)
    ensures |r| <= |s|
    ensures forall i :: 0 <= i < |r| ==> p(r[i])
    ensures forall i :: 0 <= i < |r| ==> r[i] in s
    ensures forall i :: 0 <= i < |s| && p(s[i]) ==> s[i] in r
  {
    if s == [] then []
    else (if p(s[0]) then [s[0]] else []) + Keep(s[1..], p)
  }

  /** The complement of a test. */
  function Not<T>(p: T -> bool): T -> bool
  {
    x => !p(x)
  }

  /** `r` can be obtained from `s` by deleting elements. */
  predicate Subsequence<T(==)>(r: seq<T>, s: seq<T>)
    decreases |s|
  {
    if r == [] then true
    else if s == [] then false
    else if r[0] == s[0] then Subsequence(r[1..], s[1..])
    else Subsequence(r, s[1..])
  }

  /** Deleting nothing is a way of obtaining a sequence from itself. */
  lemma SubsequenceOfItself<T>(s: seq<T>)
    ensures Subsequence(s, s)
  {
  }

  /** Every element that satisfies `p` precedes every element that does not. */
  predicate Partitioned<T>(r: seq<T>, p: T -> bool)
  {
    forall i, j :: 0 <= i < j < |r| && p(r[j]) ==> p(r[i])
  }

  /** `Keep` is exactly the filter: it is a subsequence of its input that
      keeps every occurrence of every satisfying element and nothing else. */
  lemma {:induction false} KeepIsExact<T>(s: seq<T>, p: T -> bool)
    ensures Subsequence(Keep(s, p), s)
    ensures forall x :: multiset(Keep(s, p))[x] == if p(x) then multiset(s)[x] else 0
  {
    if s != [] {
      var tail := Keep(s[1..], p);
      KeepIsExact(s[1..], p);
      assert s == [s[0]] + s[1..];
      if p(s[0]) {
        assert Keep(s, p) == [s[0]] + tail;
        assert Keep(s, p)[1..] == tail;
      } else {
        assert Keep(s, p) == tail;
        if tail != [] {
          assert p(tail[0]);
          assert tail[0] != s[0];
        }
      }
    }
  }

  /** Filtering distributes over concatenation: the filter is computed
      element by element, left to right. */
  lemma {:induction false} KeepAppend<T>(a: seq<T>, b: seq<T>, p: T -> bool)
    ensures Keep(a + b, p) == Keep(a, p) + Keep(b, p)
  {
    if a == [] {
      assert a + b == b;
    } else {
      assert (a + b)[0] == a[0];
      assert (a + b)[1..] == a[1..] + b;
      KeepAppend(a[1..], b, p);
    }
  }

  /** A filter that every element passes changes nothing. */
  lemma {:induction false} KeepAll<T>(s: seq<T>, p: T -> bool)
    requires forall i :: 0 <= i < |s| ==> p(s[i])
    ensures Keep(s, p) == s
  {
    if s != [] {
      KeepAll(s[1..], p);
      assert s == [s[0]] + s[1..];
    }
  }

  /** A filter that no element passes keeps nothing. */
  lemma {:induction false} KeepNone<T>(s: seq<T>, p: T -> bool)
    requires forall i :: 0 <= i < |s| ==> !p(s[i])
    ensures Keep(s, p) == []
  {
    if s != [] {
      KeepNone(s[1..], p);
    }
  }

  /** Filtering twice with the same test is filtering once. */
  lemma KeepIdempotent<T>(s: seq<T>, p: T -> bool)
    ensures Keep(Keep(s, p), p) == Keep(s, p)
  {
    KeepAll(Keep(s, p), p);
  }

  /** Only the values a test takes on the elements matter. */
  lemma {:induction false} KeepCongruent<T>(s: seq<T>, p: T -> bool, q: T -> bool)
    requires forall i :: 0 <= i < |s| ==> p(s[i]) == q(s[i])
    ensures Keep(s, p) == Keep(s, q)
  {
    if s != [] {
      KeepCongruent(s[1..], p, q);
    }
  }

  /** A test and its complement split a sequence into two parts that
      together hold each element exactly as often as the sequence does. */
  lemma {:induction false} KeepSplitsMultiset<T>(s: seq<T>, p: T -> bool)
    ensures multiset(Keep(s, p)) + multiset(Keep(s, Not(p))) == multiset(s)
  {
    if s != [] {
      var t := s[1..];
      KeepSplitsMultiset(t, p);
      assert s == [s[0]] + t;
      assert multiset(s) == multiset{s[0]} + multiset(t);
      if p(s[0]) {
        assert Keep(s, p) == [s[0]] + Keep(t, p);
        assert Keep(s, Not(p)) == Keep(t, Not(p));
      } else {
        assert Keep(s, p) == Keep(t, p);
        assert Keep(s, Not(p)) == [s[0]] + Keep(t, Not(p));
      }
    }
  }

  /** A sequence whose `p`-elements all come first is its `p`-part followed
      by the rest. */
  lemma {:induction false} PartitionedSplits<T>(r: seq<T>, p: T -> bool)
    requires Partitioned(r, p)
    ensures r == Keep(r, p) + Keep(r, Not(p))
  {
    if r != [] {
      assert r == [r[0]] + r[1..];
      assert Partitioned(r[1..], p) by {
        forall i, j | 0 <= i < j < |r[1..]| && p(r[1..][j])
          ensures p(r[1..][i])
        {
          assert r[1..][j] == r[j + 1] && r[1..][i] == r[i + 1];
        }
      }
      if p(r[0]) {
        PartitionedSplits(r[1..], p);
      } else {
        forall i | 0 <= i < |r[1..]|
          ensures !p(r[1..][i])
        {
          assert r[1..][i] == r[i + 1];
        }
        forall i | 0 <= i < |r[1..]|
          ensures Not(p)(r[1..][i])
        {
          assert r[1..][i] == r[i + 1];
        }
        KeepNone(r[1..], p);
        KeepAll(r[1..], Not(p));
      }
    }
  }

}

=== FILE: text.dfy ===
/** The string operations the widget relies on: ASCII case folding, substring
    search (`String.prototype.includes`), replacement of the first occurrence
    of a literal pattern (`String.prototype.replace` with a string pattern and
    a replacement that holds no `$`), and the decimal rendering of a
    non-negative integer (a template literal around `Date.now()`). */
module Text {
  import opened Options

  /** ASCII lower-casing of one character; every other character is kept. */
  function Lower(c: char): char
  {
    if 'A' <= c <= 'Z' then (c as int + 32) as char else c
  }

  /** ASCII lower-casing of a string, character by character. */
  function LowerStr(s: string): (r: string)
    ensures |r| == |s|
    ensures forall i :: 0 <= i < |s| ==> r[i] == Lower(s[i])
  {
    seq(|s|, i requires 0 <= i < |s| => Lower(s[i]))
  }

  /** Lower-casing is a projection: a lower-cased string is its own lower case. */
  lemma LowerStrIdempotent(s: string)
    ensures LowerStr(LowerStr(s)) == LowerStr(s)
  {
    var l := LowerStr(s);
    forall i | 0 <= i < |s|
      ensures LowerStr(l)[i] == l[i]
    {
      assert Lower(Lower(s[i])) == Lower(s[i]);
    }
  }

  /** `pat` occurs in `s` starting at position `i`. */
  predicate MatchesAt(s: string, pat: string, i: nat)
  {
    i + |pat| <= |s| && s[i..i + |pat|] == pat
  }

  /** `i` is the leftmost position where `pat` occurs in `s`. */
  predicate FirstMatch(s: string, pat: string, i: nat)
  {
    MatchesAt(s, pat, i) && forall j: nat :: j < i ==> !MatchesAt(s, pat, j)
  }

  /** The leftmost occurrence of `pat` in `s` at or after `from`. */
  function FirstIndexFrom(s: string, pat: string, from: nat): (r: Option<nat>)
    ensures r.Some? ==> from <= r.value && MatchesAt(s, pat, r.value)
    ensures r.Some? ==> forall j: nat :: from <= j < r.value ==> !MatchesAt(s, pat, j)
    ensures r.None? ==> forall j: nat :: from <= j ==> !MatchesAt(s, pat, j)
    decreases |s| - from
  {
    if from + |pat| > |s| then None
    else if s[from..from + |pat|] == pat then Some(from)
    else FirstIndexFrom(s, pat, from + 1)
  }

  /** The leftmost occurrence of `pat` in `s` (`String.prototype.indexOf`). */
  function FirstIndex(s: string, pat: string): (r: Option<nat>)
    ensures r.Some? ==> FirstMatch(s, pat, r.value)
    ensures r.None? ==> forall j: nat :: !MatchesAt(s, pat, j)
  {
    FirstIndexFrom(s, pat, 0)
  }

  /** `String.prototype.includes`: some position of `s` starts `pat`. */
  function Contains(s: string, pat: string): (b: bool)
    ensures b <==> exists j: nat :: MatchesAt(s, pat, j)
  {
    FirstIndex(s, pat).Some?
  }

  /** The empty pattern occurs in every string. */
  lemma ContainsEmpty(s: string)
    ensures Contains(s, "")
  {
    assert MatchesAt(s, "", 0);
  }

  /** `s.replace(pat, rep)` for a literal pattern: only the leftmost
      occurrence is replaced, and a string without one is returned as is. */
  function ReplaceFirst(s: string, pat: string, rep: string): (r: string)
    ensures (forall j: nat :: !MatchesAt(s, pat, j)) ==> r == s
    ensures forall i: nat :: FirstMatch(s, pat, i) ==> r == s[..i] + rep + s[i + |pat|..]
  {
    match FirstIndex(s, pat)
    case None => s
    case Some(i) =>
      assert forall k: nat :: FirstMatch(s, pat, k) ==> k == i;
      s[..i] + rep + s[i + |pat|..]
  }

  predicate IsDigit(c: char)
  {
    '0' <= c <= '9'
  }

  function DigitChar(d: nat): (c: char)
    requires d < 10
    ensures IsDigit(c)
  {
    ('0' as int + d) as char
  }

  function DigitValue(c: char): nat
    requires IsDigit(c)
  {
    c as int - '0' as int
  }

  /** The decimal digits of `n` without leading zeros, as a template literal
      renders a non-negative integer such as a millisecond timestamp. */
  function Decimal(n: nat): (r: string)
    ensures |r| >= 1
    ensures forall i :: 0 <= i < |r| ==> IsDigit(r[i])
    ensures r[0] == '0' ==> n == 0
  {
    if n < 10 then [DigitChar(n)]
    else Decimal(n / 10) + [DigitChar(n % 10)]
  }

  /** The number a string of decimal digits denotes. */
  function DecimalValue(s: string): nat
    requires forall i :: 0 <= i < |s| ==> IsDigit(s[i])
  {
    if s == [] then 0
    else DecimalValue(s[..|s| - 1]) * 10 + DigitValue(s[|s| - 1])
  }

  /** `Decimal` loses nothing: reading its digits back gives the number. */
  lemma {:induction false} DecimalRoundTrip(n: nat)
    ensures DecimalValue(Decimal(n)) == n
  {
    if n >= 10 {
      var d := Decimal(n);
      assert d[..|d| - 1] == Decimal(n / 10);
      DecimalRoundTrip(n / 10);
    }
  }

}

=== FILE: viewer.dfy ===
/** The viewer (`playGme`, `closeGme`, `refreshGme`, `updateFavoriteButton`,
    gmes/js/gme.js:86-153) as transitions of an abstract page record. The
    page is either showing the grid (header, search box and grid visible) or
    playing (the embedded frame visible); the frame may carry a `srcdoc`
    attribute (inline markup) and a `src` attribute; the viewer shows a
    title, remembers the url of the open item, and the favorite button shows a label. The
    outcome of fetching an item's markup is an input. */
module Viewer {
  import opened Options
  import opened Favorites

  datatype View = Grid | Playing

  /** The parts of the page the widget changes. `currentUrl` is "" while no
      item has been opened: the source's `null` and "" are both falsy and
      every test of it is a truthiness test.

      The frame's `src` property reflects a URL attribute: without the
      attribute it reads "", and with it it reads the attribute resolved
      against the document's URL, which is never empty (an empty value
      resolves to the document's own URL). Every test of `src` is a
      truthiness test, so the model keeps only `hasSrc`, whether the
      attribute is present.

      The `srcdoc` property reflects a plain string: it reads "" both when
      the attribute is absent and when it is present and empty. Its presence
      still matters, because a frame with a `srcdoc` attribute shows that
      markup and ignores any change to `src` (the HTML standard's rules for
      processing iframe attributes), so the model keeps `hasSrcdoc` beside
      the value. */
  datatype Page = Page(view: View, srcdoc: string, hasSrcdoc: bool, hasSrc: bool,
                       title: string, currentUrl: string, button: Label)

  /** The outcome of fetching an item's markup: the request failed, the
      response was not ok, or it was ok with this body. */
  datatype Fetched = NetworkError | NotOk | Loaded(html: string)

  /** A warning shown to the user (`showNotification(msg, 'warning')`). */
  datatype Notice = Warning(message: string)

  datatype Played = Played(page: Page, notice: Option<Notice>)

  /** What a refresh does to the frame: nothing, re-assign `srcdoc` (which
      reloads the inline markup), or re-assign `src`, which loads the `src`
      location only when `navigates` holds, that is when the frame has no
      `srcdoc` attribute. */
  datatype Reload = NoReload | ReloadSrcdoc | ReassignSrc(navigates: bool)

  datatype Refreshed = Refreshed(page: Page, reload: Reload)

  const UnnamedTitle: string := "Unnamed Gme"
  const FallbackName: string := "Gme"
  const MissingSuffix: string := " - files missing!"
  const FailedSuffix: string := " - failed to load game content."

  /** The page before anything has been opened: the grid is shown and the
      frame carries neither a `srcdoc` nor a `src` attribute. The button's label is the
      page markup's, which only matters once an item is open. */
  const InitialPage: Page := Page(Grid, "", false, false, "", "", NotFavorited)

  /** `name || "Gme"`: the name a warning mentions. */
  function NoticeName(name: string): string
  {
    if name == "" then FallbackName else name
  }

  /** Lines 86-93: remember the url and show whether it is a favorite;
      nothing else on the page changes. */
  function UpdateFavoriteButton(p: Page, favs: seq<FavoriteEntry>, url: string): (r: Page)
    ensures r.currentUrl == url
    ensures r.button == Favorited <==> IsFavorite(favs, url)
    ensures r.(currentUrl := p.currentUrl, button := p.button) == p
  {
    p.(currentUrl := url, button := ButtonLabel(favs, url))
  }

  /** Lines 105-131. Without a url, or when the markup cannot be fetched,
      the page stays as it was and a warning naming the item is emitted.
      Otherwise the frame shows the fetched markup, the title is the name
      (or "Unnamed Gme"), and the button follows the opened url. */
  function Play(p: Page, favs: seq<FavoriteEntry>, url: string, name: string, fetched: Fetched): (r: Played)
    ensures r.notice.None? <==> url != "" && fetched.Loaded?
    ensures r.notice.Some? ==> r.page == p
    ensures url == "" ==> r.notice == Some(Warning(NoticeName(name) + MissingSuffix))
    ensures url != "" && !fetched.Loaded? ==> r.notice == Some(Warning(NoticeName(name) + FailedSuffix))
    ensures r.notice.None? ==>
              && r.page.view == Playing
              && r.page.srcdoc == fetched.html
              && r.page.hasSrcdoc
              && r.page.hasSrc == p.hasSrc
              && r.page.title == (if name == "" then UnnamedTitle else name)
              && r.page.currentUrl == url
              && (r.page.button == Favorited <==> IsFavorite(favs, url))
  {
    if url == "" then Played(p, Some(Warning(NoticeName(name) + MissingSuffix)))
    else match fetched
      case Loaded(html) =>
        var shown := p.(view := Playing, srcdoc := html, hasSrcdoc := true,
                        title := if name == "" then UnnamedTitle else name);
        Played(UpdateFavoriteButton(shown, favs, url), None)
      case _ => Played(p, Some(Warning(NoticeName(name) + FailedSuffix)))
  }

  /** Lines 134-142: back to the grid with the inline markup emptied. The
      assignments `src = ''` and `srcdoc = ''` leave both attributes behind,
      with empty values, so afterwards the frame has both. The title, the
      remembered url and the button are left as they were. */
  function Close(p: Page): (r: Page)
    ensures r.view == Grid && r.srcdoc == "" && r.hasSrcdoc && r.hasSrc
    ensures r.(view := p.view, srcdoc := p.srcdoc, hasSrcdoc := p.hasSrcdoc, hasSrc := p.hasSrc) == p
  {
    p.(view := Grid, srcdoc := "", hasSrcdoc := true, hasSrc := true)
  }

  /** Lines 144-153: the frame's content is re-assigned to itself, which
      changes no value. Non-empty inline markup is re-assigned (and
      reloads); otherwise a present `src` attribute is re-assigned, which
      loads its location only when there is no `srcdoc` attribute; a frame
      with neither property set is left alone. */
  function Refresh(p: Page): (r: Refreshed)
    ensures r.page == p
    ensures r.reload == NoReload <==> p.srcdoc == "" && !p.hasSrc
    ensures r.reload == ReloadSrcdoc <==> p.srcdoc != ""
    ensures r.reload.ReassignSrc? ==> (r.reload.navigates <==> !p.hasSrcdoc)
  {
    if p.srcdoc != "" then Refreshed(p, ReloadSrcdoc)
    else if p.hasSrc then Refreshed(p, ReassignSrc(!p.hasSrcdoc))
    else Refreshed(p, NoReload)
  }

  /** After closing, a refresh finds the empty `src` attribute that the close
      left behind and re-assigns it (line 150), but nothing loads: the empty
      `srcdoc` attribute left by line 141 takes precedence. */
  lemma CloseThenRefresh(p: Page)
    ensures Refresh(Close(p)).reload == ReassignSrc(false)
  {
  }

  /** After a successful play, a refresh reloads the fetched markup, provided
      it is not empty. */
  lemma PlayThenRefresh(p: Page, favs: seq<FavoriteEntry>, url: string, name: string, html: string)
    requires url != "" && html != ""
    ensures Refresh(Play(p, favs, url, name, Loaded(html)).page).reload == ReloadSrcdoc
  {
  }

}

=== FILE: widget.dfy ===
/** The widget as a whole (gmes/js/gme.js:1-5, 18-34, 37-102, 166-177): the
    process-wide state of the page script, the handler each user or loader
    event runs, and the invariants those handlers keep. Network results and
    clock readings arrive inside the events; everything else is a pure
    function of the state. */
module Widget {
  import opened Options
  import opened Seqs
  import opened Catalog
  import opened Search
  import opened Favorites
  import opened Ordering
  import opened Viewer

  /** The four globals of lines 2-5 (the open item's url lives in the page)
      and the page itself. */
  datatype App = App(catalog: seq<Item>, filtered: seq<Item>,
                     favorites: seq<FavoriteEntry>, page: Page)

  /** The outcome of fetching the catalog feed: no response or a body that
      is not a JSON array of records, a response that is not ok, or the
      records. */
  datatype Feed = FeedUnreadable | FeedNotOk | FeedRecords(records: seq<RawRecord>)

  /** What the grid shows: the "No gmes found" placeholder, or cards. */
  datatype GridView = NoResults | Cards(items: seq<Item>)

  /** The events the page reacts to. A `Loaded` event carries one clock
      reading per listed record of the feed. */
  datatype Event =
    | Loaded(feed: Feed, stamps: seq<nat>)
    | Searched(term: string)
    | FavoriteClicked
    | CardClicked(url: string, name: string, fetched: Fetched)
    | CloseClicked
    | RefreshClicked

  /** What an event does besides changing the state. */
  datatype Effect = Quiet | Notify(notice: Notice) | Reloads(reload: Reload)

  datatype Stepped = Stepped(app: App, effect: Effect)

  /** Lines 1-5: nothing loaded, the stored favorites, no open item. */
  function Start(stored: seq<FavoriteEntry>): (app: App)
    ensures Valid(app)
  {
    App([], [], stored, InitialPage)
  }

  /** How many clock readings loading this feed takes. */
  function StampsNeeded(feed: Feed): nat
  {
    if feed.FeedRecords? then |Keep(feed.records, Listed)| else 0
  }

  /** Lines 19-31: the catalog a feed yields; every failure yields none. */
  function CatalogOf(feed: Feed, stamps: seq<nat>): (catalog: seq<Item>)
    requires |stamps| == StampsNeeded(feed)
    ensures !feed.FeedRecords? ==> catalog == []
    ensures feed.FeedRecords? ==> |catalog| == |Keep(feed.records, Listed)|
  {
    match feed
    case FeedRecords(records) => Normalize(records, stamps)
    case _ => []
  }

  /** Lines 41-53 and 55-65: what the grid shows for the current state. */
  function GridOf(app: App): (g: GridView)
    ensures g.NoResults? <==> app.filtered == []
    ensures g.Cards? ==> multiset(g.items) == multiset(app.filtered)
    ensures g.Cards? ==> Partitioned(g.items, IsFav(Urls(app.favorites)))
  {
    var sorted := FavoritesFirst(app.filtered, app.favorites);
    if |sorted| == 0 then NoResults else Cards(sorted)
  }

  /** The state change of `renderGmes` (lines 37-71): when there are cards
      and an item is open, the favorite button is brought up to date. The
      "No gmes found" branch returns before that. */
  function Render(app: App): (r: App)
    ensures r.(page := app.page) == app
    ensures r.page.(button := app.page.button) == app.page
    ensures GridOf(app).Cards? && app.page.currentUrl != "" ==>
              (r.page.button == Favorited <==> IsFavorite(app.favorites, app.page.currentUrl))
    ensures !(GridOf(app).Cards? && app.page.currentUrl != "") ==> r == app
  {
    if GridOf(app).Cards? && app.page.currentUrl != "" then
      app.(page := UpdateFavoriteButton(app.page, app.favorites, app.page.currentUrl))
    else app
  }

  /** `toggleFavorite` (lines 74-84): toggle, update the button for the
      toggled url, render. Storage is written in between and not modelled. */
  function ToggleFavorite(app: App, url: string, title: string): (r: App)
    ensures r.favorites == Toggle(app.favorites, url, title)
    ensures r.page.currentUrl == url
    ensures r.page.button == ButtonLabel(r.favorites, url)
    ensures r.catalog == app.catalog && r.filtered == app.filtered
    ensures r.page.(currentUrl := app.page.currentUrl, button := app.page.button) == app.page
  {
    var favs := Toggle(app.favorites, url, title);
    Render(app.(favorites := favs, page := UpdateFavoriteButton(app.page, favs, url)))
  }

  /** The handler each event runs. */
  function Step(app: App, e: Event): (r: Stepped)
    requires e.Loaded? ==> |e.stamps| == StampsNeeded(e.feed)
    ensures r.app.catalog != app.catalog ==> e.Loaded?
    ensures r.app.filtered != app.filtered ==> e.Loaded? || e.Searched?
    ensures r.app.favorites != app.favorites ==> e.FavoriteClicked?
    ensures r.app.page.view != app.page.view ==> e.CardClicked? || e.CloseClicked?
    ensures r.effect.Notify? ==> e.CardClicked? && r.app == app
  {
    match e
    case Loaded(feed, stamps) =>
      // lines 22-33: the filtered view is reset to the whole new catalog
      var catalog := CatalogOf(feed, stamps);
      Stepped(Render(app.(catalog := catalog, filtered := catalog)), Quiet)
    case Searched(term) =>
      // lines 96-102
      Stepped(Render(app.(filtered := Filter(app.catalog, term))), Quiet)
    case FavoriteClicked =>
      // lines 173-175
      if app.page.currentUrl == "" then Stepped(app, Quiet)
      else Stepped(ToggleFavorite(app, app.page.currentUrl, app.page.title), Quiet)
    case CardClicked(url, name, fetched) =>
      var played := Play(app.page, app.favorites, url, name, fetched);
      if played.notice.Some? then Stepped(app, Notify(played.notice.value))
      else Stepped(app.(page := played.page), Quiet)
    case CloseClicked =>
      Stepped(app.(page := Close(app.page)), Quiet)
    case RefreshClicked =>
      var refreshed := Refresh(app.page);
      Stepped(app, if refreshed.reload == NoReload then Quiet else Reloads(refreshed.reload))
  }

  /** The favorite button shows the open item's status. */
  predicate ButtonInSync(app: App)
  {
    app.page.currentUrl != "" ==> app.page.button == ButtonLabel(app.favorites, app.page.currentUrl)
  }

  /** The invariants the handlers keep: the filtered view is drawn from the
      catalog in catalog order, the button shows the open item's status, an
      item is open whenever the frame is shown, and the frame never has a
      `src` attribute without a `srcdoc` one. */
  predicate Valid(app: App)
  {
    && Subsequence(app.filtered, app.catalog)
    && ButtonInSync(app)
    && (app.page.view == Playing ==> app.page.currentUrl != "")
    && (app.page.hasSrc ==> app.page.hasSrcdoc)
  }

  /** Rendering changes nothing in a valid state: the button is already up
      to date. */
  lemma RenderKeepsValid(app: App)
    requires Subsequence(app.filtered, app.catalog)
    requires app.page.view == Playing ==> app.page.currentUrl != ""
    requires app.page.hasSrc ==> app.page.hasSrcdoc
    ensures Valid(Render(app)) <==> ButtonInSync(app) || GridOf(app).Cards?
  {
  }

  /** Every handler keeps the invariants. */
  lemma {:induction false} StepKeepsValid(app: App, e: Event)
    requires Valid(app)
    requires e.Loaded? ==> |e.stamps| == StampsNeeded(e.feed)
    ensures Valid(Step(app, e).app)
  {
    match e
    case Loaded(feed, stamps) =>
      SubsequenceOfItself(CatalogOf(feed, stamps));
    case Searched(term) =>
    case FavoriteClicked =>
    case CardClicked(url, name, fetched) =>
    case CloseClicked =>
    case RefreshClicked =>
  }

  /** In a valid state the refresh button never loads the `src` location:
      whenever line 150 re-assigns `src`, a `srcdoc` attribute overrides it. */
  lemma RefreshNeverNavigates(app: App)
    requires Valid(app)
    ensures Step(app, RefreshClicked).effect != Reloads(ReassignSrc(true))
    ensures Step(app, RefreshClicked).app == app
  {
  }

  /** Every handler keeps the favorites' urls distinct. */
  lemma StepKeepsDistinctUrls(app: App, e: Event)
    requires DistinctUrls(app.favorites)
    requires e.Loaded? ==> |e.stamps| == StampsNeeded(e.feed)
    ensures DistinctUrls(Step(app, e).app.favorites)
  {
    if e.FavoriteClicked? && app.page.currentUrl != "" {
      ToggleKeepsDistinct(app.favorites, app.page.currentUrl, app.page.title);
    }
  }

  /** In a valid state with distinct favorites, clicking the favorite
      button of an open item flips both its favorite status and the label. */
  lemma {:induction false} FavoriteClickFlips(app: App)
    requires Valid(app) && DistinctUrls(app.favorites)
    requires app.page.currentUrl != ""
    ensures var next := Step(app, FavoriteClicked).app;
            && (IsFavorite(next.favorites, app.page.currentUrl) <==> !IsFavorite(app.favorites, app.page.currentUrl))
            && next.page.button != app.page.button
  {
    ToggleFlips(app.favorites, app.page.currentUrl, app.page.title);
  }

  /** Searching twice for the same term is searching once. */
  lemma SearchTwice(app: App, term: string)
    ensures Step(Step(app, Searched(term)).app, Searched(term)).app == Step(app, Searched(term)).app
  {
  }

  /** The warning text for "Foo" when its markup cannot be fetched. */
  lemma FooFailedMessage()
    ensures NoticeName("Foo") + FailedSuffix == "Foo - failed to load game content."
  {
  }

  /** A card whose markup cannot be fetched leaves everything as it was and
      warns with the item's name: opening "Foo" over a failing network. */
  lemma {:induction false} PlayFailureExample(app: App)
    ensures Step(app, CardClicked("a", "Foo", NetworkError))
         == Stepped(app, Notify(Warning("Foo - failed to load game content.")))
  {
    var e := CardClicked("a", "Foo", NetworkError);
    var played := Play(app.page, app.favorites, "a", "Foo", NetworkError);
    FooFailedMessage();
    assert played == Played(app.page, Some(Warning(NoticeName("Foo") + FailedSuffix)));
    assert Step(app, e) == Stepped(app, Notify(played.notice.value));
  }

}
